=== FILE: README.md ===
# Supabase relay — a Dafny model of the forwarding proxy

The relay (`relay.py`) is a small FastAPI service. It accepts `POST
/proxy/{endpoint}` from callers that cannot authenticate, decides what to
forward, and sends that upstream with fixed HTTP Basic credentials. It then
turns the upstream's answer, or any failure, into a JSON reply. Beside it
sit `/health` and `/openapi.json`, whose only logic is a test on the Accept
header. This project models that logic as pure Dafny functions and proves
what the handler promises about each request.

## Layout

- `json.dfy`, module `Json`: the values `json.loads` yields (`JNull`,
  `JBool`, `JInt`, `JFloat`, `JStr`, `JArr`, `JObj`). A dict is its list of
  key/value pairs; `Get` looks a key up as `dict(pairs)` would, so the last
  pair for a key wins. Also Python truthiness (`Truthy`), Python type
  names (`TypeName`), and what `json.dumps(..., allow_nan=False)` accepts
  (`Encodable`, tied by `EncodableIffNoNonFinite` to `NonFiniteAt`: no path
  of list indices and dict keys leads to NaN or an infinity).
- `python.dfy`, module `Python`: the exceptions the handler's steps raise
  and the `Attempt` outcome (a value, or the exception raised). It also has
  `str` containment (`StrContains`) and what `key in v`, `v[key]` and
  `v.get(key, default)` do for each kind of decoded value, with CPython's
  error messages.
- `relay.dfy`, module `Relay`: the configuration (`ConfigFromEnv`: the
  later `UPSTREAM`/`AUTH` assignment, relay.py:45-46, is the one in force).
  Then the request pipeline: `Unwrap`, `Interpret`, `ChoosePayload`,
  `ForwardBody` and `Prepare` decide the payload (relay.py:56-88). `TargetUrl` and `Post`
  build the one upstream request (relay.py:91-98). `Translate` turns the
  upstream outcome into the returned dict (relay.py:100-115). `Proxy` is
  the whole handler, and `Serve` is how the framework answers for the value
  it returns: FastAPI's `jsonable_encoder` leaves out every dict key that
  starts with `"_sa"` (`Rendered`), and `json.dumps(..., allow_nan=False)`
  then refuses NaN and the infinities. `Health` and `OpenApi` are the two Accept-header
  handlers.
- `relay_properties.dfy`, module `RelayProperties`: the lemmas about the
  handler.

The UTF-8 decoder, `json.loads` and `json.dumps` are the fields of a
`Codec` value. The upstream is a function `network` from the outbound
request to its outcome: a transport failure, or a reply with its status,
what `response.json()` made of it, and its text. The handler never inspects
what these produce beyond the shapes above, so every lemma holds for every
codec and every upstream.

Four behaviours of the code are easy to miss; the model follows the code
in each:
- the payload for JSON without an envelope is the original text, not a
  re-serialisation;
- the envelope test is Python's `in`, which also matches a top-level list
  holding the string `"function_call"` or a string containing it (both
  then fail with a TypeError), and which raises on a top-level number,
  bool or null;
- `name` may be any value, and the warning depends on its truthiness;
- the proxy handler's answer has HTTP status 200, even when the returned
  dict says `status: 500`. The exception is an upstream JSON reply that
  still holds NaN or an infinity after duplicate keys are resolved and
  `"_sa"` keys are left out; the framework's encoder refuses it, and the
  caller gets a plain-text 500. The body of a 200 answer is the returned
  value without its `"_sa"` keys.

## Model

| member | source | states |
|---|---|---|
| `Relay.ConfigFromEnv` | relay.py:45-46 | no ensures of its own; specified by `SinglePostToEndpoint`: the upstream base is `UPSTREAM_URL` or the default, and the credentials are the fixed pair |
| `Relay.Proxy` | relay.py:48-115 | no ensures of its own; specified by `RejectedExactlyWhenPreparationRaises`, `SinglePostToEndpoint` and `AnsweredAsJsonUnlessUpstreamNonFinite` |
| `Relay.Prepare` | relay.py:56-57 | no ensures of its own; specified by `NonUtf8BodyRejected` and, after decoding, by the lemmas on `ForwardBody` |
| `Relay.ForwardBody` | relay.py:63-88 | no ensures of its own; specified by `NotJsonForwardedVerbatim`, `EmptyBodyForwardedVerbatim`, `PlainJsonForwardedVerbatim`, `EnvelopeUnwrapped`, `PayloadIgnoresEndpoint`, `LoaderFailureRejected`, `ScalarBodyRejected`, `StringEnvelopeRejected`, `ArrayEnvelopeRejected` and `NonObjectCallRejected` |
| `Relay.ChoosePayload` | relay.py:65-88 | no ensures of its own; the inner `try` and its `except json.JSONDecodeError`, specified through `ForwardBody`'s lemmas (`NotJsonForwardedVerbatim`, `EnvelopeUnwrapped`, `LoaderFailureRejected`) |
| `Relay.Interpret` | relay.py:69-84 | no ensures of its own; the envelope test and its two branches, specified by `PlainJsonForwardedVerbatim`, `EnvelopeUnwrapped`, `ScalarBodyRejected`, `StringEnvelopeRejected` and `ArrayEnvelopeRejected` |
| `Relay.Unwrap` | relay.py:71-79 | no ensures of its own; specified by `EnvelopeUnwrapped`, `NameOnlyWarns` and `NonObjectCallRejected` |
| `Relay.TargetUrl` | relay.py:93 | no ensures of its own; specified by `TargetUrlKeepsEndpoint` |
| `Relay.Post` | relay.py:91-98 | no ensures of its own; specified by `SinglePostToEndpoint` |
| `Relay.Translate` | relay.py:100-115 | no ensures of its own; specified by `JsonReplyPassedThrough`, `NonJsonReplyWrapped` and `FailureBecomesError500` |
| `Json.Get` | relay.py:70 | the key is found iff some pair binds it, and the value found is the one of the last pair that binds it |
| `Python.StrContains` | relay.py:179 | `needle in hay` holds iff `needle` occurs in `hay` at some index (the empty string occurs everywhere) |
| `Python.In` | relay.py:69 | `"function_call" in v` is a key test on a dict, an element test on a list and a substring test on a str; on a number, bool or null it raises `TypeError("argument of type '<type>' is not iterable")` |
| `Python.Subscript` | relay.py:70 | `v["function_call"]` succeeds only on a dict holding the key, giving its last binding; on a list or str it raises a TypeError |
| `Python.DictGet` | relay.py:71-72 | `.get` raises AttributeError on anything but a dict; on a dict it gives the key's last binding, or the default when the key is missing |
| `RelayProperties.NotJsonForwardedVerbatim` | relay.py:85-88 | a body that `json.loads` rejects with JSONDecodeError is forwarded exactly as received, with no warning |
| `RelayProperties.EmptyBodyForwardedVerbatim` | relay.py:56-66 | an empty body, which is not JSON, leads to one upstream POST with an empty payload |
| `RelayProperties.PlainJsonForwardedVerbatim` | relay.py:81-84 | JSON that names no `function_call` is forwarded as the original text. This covers a dict without the key, a list without the element and a str without the substring |
| `RelayProperties.EnvelopeUnwrapped` | relay.py:69-79 | for a dict whose `function_call` is a dict, the payload is `json.dumps` of its `parameters`, or of `{}` when absent. A JSONDecodeError from dumps is caught by the inner handler and the text is forwarded as it is; any other dumps failure is the request's failure. The value serialised is never the envelope itself |
| `RelayProperties.NameOnlyWarns` | relay.py:71-76 | two `function_call` dicts with the same `parameters` give the same payload, or the same failure, whatever their names and endpoints. The warning is raised iff the name is truthy and is not the endpoint |
| `RelayProperties.PayloadIgnoresEndpoint` | relay.py:63-88 | the same body gives the same payload, or the same failure, on every endpoint |
| `RelayProperties.RejectedExactlyWhenPreparationRaises` | relay.py:112-115 | no upstream call is made iff preparing the payload raised; the answer is then exactly `{error: str(e), status: 500}` |
| `RelayProperties.NonUtf8BodyRejected` | relay.py:56-57 | a body that is not UTF-8 ends in `{error, status: 500}` with no upstream call |
| `RelayProperties.LoaderFailureRejected` | relay.py:65-66 | an exception from `json.loads` other than JSONDecodeError escapes the inner handler: `{error, status: 500}`, no upstream call |
| `RelayProperties.ScalarBodyRejected` | relay.py:69 | a top-level number, bool or null ends in `{error: "argument of type '<type>' is not iterable", status: 500}`, no upstream call |
| `RelayProperties.StringEnvelopeRejected` | relay.py:69-70 | a top-level string containing `function_call` ends in the str-indexing TypeError, no upstream call |
| `RelayProperties.ArrayEnvelopeRejected` | relay.py:69-70 | a top-level list holding the string `function_call` ends in the list-indexing TypeError, no upstream call |
| `RelayProperties.NonObjectCallRejected` | relay.py:70-71 | a `function_call` that is not a dict ends in `{error: "'<type>' object has no attribute 'get'", status: 500}`, no upstream call |
| `RelayProperties.TargetUrlKeepsEndpoint` | relay.py:93 | the URL is the base, a slash, then the endpoint unchanged; distinct endpoints give distinct URL strings (what the client then reaches is under Left out) |
| `RelayProperties.SinglePostToEndpoint` | relay.py:91-98 | a preparable request makes exactly one POST to `UPSTREAM + "/" + endpoint`. It carries the prepared payload, `Content-Type: application/json`, the fixed credentials and a 30-second timeout. The reply is the translation of that call's outcome |
| `Relay.Serve` | relay.py:48 | the route answers as JSON with status 200 iff no path through the returned value reaches NaN or an infinity, where the path follows each dict key to its last binding and takes no `"_sa"` key; the body is then the value without its `"_sa"` keys (`Rendered`, pinned by `KeptLookup`, `RenderedLookup` and `RenderedNonFinite`). Otherwise the framework answers with a plain-text 500 |
| `RelayProperties.ServedAsReturnedWithoutSqlAlchemyKeys` | relay.py:48 | a returned value with no `"_sa"` key anywhere is sent exactly as returned, or gets the 500 when it does not encode |
| `RelayProperties.OverriddenValueIgnored` | relay.py:101-111 | for any pair that a later pair with the same key overrides, whatever its value, the dict gets the same verdict (JSON 200 or the 500): the dict `response.json()` builds does not hold the overridden value |
| `RelayProperties.SqlAlchemyNaNServedEmpty` | relay.py:101-111 | example: the upstream reply `{"_sa": NaN}` is answered with status 200 and the empty dict |
| `RelayProperties.AnsweredAsJsonUnlessUpstreamNonFinite` | relay.py:54-115 | every path returns a value, so no exception escapes the handler. The caller gets that value, as the encoder renders it, as JSON with HTTP status 200. The one exception is an upstream JSON reply in which a path taking no `"_sa"` key reaches NaN or an infinity, which ends in the framework's 500. The error and non-JSON dicts go out exactly as returned |
| `RelayProperties.JsonReplyPassedThrough` | relay.py:101-111 | an upstream body that parses as JSON is returned unchanged |
| `RelayProperties.NonJsonReplyWrapped` | relay.py:105-108 | an upstream body that does not parse is returned as a dict with exactly the keys `response`, `status` and `error`: the text, the upstream's real status and null |
| `RelayProperties.FailureBecomesError500` | relay.py:112-115 | a transport failure, or any other exception while reading the reply, gives a dict with exactly the keys `error` and `status`: `str(e)` and 500 |
| `Relay.Health` | relay.py:175-182 | 204 with an empty `application/health+json` body iff the Accept header (default `""`) contains `application/health`; otherwise `{ok: true}` |
| `RelayProperties.HealthWithoutAccept` | relay.py:178 | a request without an Accept header gets `{ok: true}` |
| `Relay.OpenApiAsWritten` | relay.py:189-194 | as written: the indented text iff the Accept header contains `text/`; otherwise the JSONResponse construction raises TypeError |
| `Relay.OpenApi` | relay.py:189-194 | as intended: indented plain text iff the Accept header contains `text/`, the schema as JSON otherwise |
| `RelayProperties.GzipKeywordBreaksJsonBranch` | relay.py:194 | with no Accept header the written handler raises, where the intended one answers with the schema |

## Left out

- The UTF-8 decoder, `json.loads`, `json.dumps` and `response.json()` are not modelled. They are foreign library code: the first three are fields of `Codec`, and the last is part of the upstream outcome.
- The HTTP client, the network and the 30-second timeout are not modelled either. The upstream is the `network` parameter, and the timeout is only recorded as a value on the outbound request; a timeout is one of the transport failures. The client's parsing of the URL string is not modelled either, so the injectivity of `TargetUrl` is about strings, not the resources reached. The server percent-decodes the request path before binding `endpoint`, and the client then parses the string. A `#` in the endpoint starts a fragment that is never sent, so `/proxy/a%231` and `/proxy/a%232` both POST to `<base>/a`. A `?` starts a query. Dot segments are removed, so `/proxy/..%2Fadmin` POSTs, with the credentials, to `http://localhost:8000/admin`, outside `/mcp`.
- The log lines (relay.py:19-23, 60-61, 76, 80, 84, 88, 104, 107, 114) are observational. The model assumes printing never raises. The name-mismatch warning is kept as a flag on the prepared payload.
- FastAPI app construction, routing, the CORS middleware and start-up (relay.py:30-42, 206-209) are framework plumbing. Of the framework's rendering of a returned value, only the `"_sa"` key drop of `jsonable_encoder` and the encoder's refusal of NaN and the infinities are modelled (`Serve`); the decoded JSON values hold nothing else the encoder would change.
- Routing order: FastAPI adds its own `/openapi.json` route when the app is built (relay.py:30-34), before relay.py:184 adds the handler, and the first matching route answers. That route therefore shadows the handler modelled by `OpenApiAsWritten` and `OpenApi`: as the app is built, no request reaches it. Routing is not part of this model.
- Prepared: when `json.dumps` raises a JSONDecodeError after the name-mismatch warning was logged, the request falls back to forwarding the text, and the prepared value's warning flag then reads false.
- The static page at `/` (relay.py:117-173) is a constant. `/openapi.txt` with its `lru_cache` (relay.py:196-204) and `app.openapi()` are framework-generated content; the schema and `json.dumps(_, indent=2)` are parameters of `OpenApi`.
- The environment is read once and passed in. Only `UPSTREAM_URL` is modelled: the first assignments at relay.py:26-27 are overwritten by relay.py:45-46. `LOG_LEVEL` and `PORT` are not modelled.
- Concurrency: each request is independent and shares no state. The model has no state, so two identical requests make two upstream calls, each answered by `network`.
- Python strings may hold lone surrogates (json.loads accepts `"\ud800"`), while Dafny strings cannot; such strings are not modelled.
- Python.Str: the repr of a KeyError key is written for keys without quotes or backslashes. The only key the handler looks up, `function_call`, is one of these, and its lookup cannot miss after the `in` test.
- The wording of Python's error messages follows CPython 3.11 and later. Older versions word the str-indexing TypeError without the trailing type name.
- A float is the value the parser produced (finite, infinite or NaN); rounding to binary64 happens inside the parser.

## Findings

| source | as written | input that shows it | evidently intended | confidence | as-written member | corrected member |
|---|---|---|---|---|---|---|
| relay.py:194 | the JSON branch builds `JSONResponse(..., gzip=True)`; Starlette's JSONResponse takes no `gzip` keyword, so the handler raises TypeError whenever the Accept header lacks `text/`. As the app is built no request reaches the handler (FastAPI's own `/openapi.json` route answers first, see Left out), so the defect is latent | a call of the handler with no Accept header, or with `Accept: application/json` | answer with the schema as JSON | medium, not executed (rests on the Starlette signature) | `Relay.OpenApiAsWritten`, `RelayProperties.GzipKeywordBreaksJsonBranch` | `Relay.OpenApi` |

=== FILE: json.dfy ===
/**
 The values that Python's json.loads produces, as the relay sees them: None,
 bool, int, float, str, list and dict. A dict is kept as the list of its
 key/value pairs in document order; looking a key up follows dict(pairs),
 so when a key occurs more than once the last pair wins.
 */
module Json {

  datatype Option<+T> = None | Some(value: T) {
    /** The value, or `default` when there is none (dict.get with a default). */
    function GetOr(default: T): T {
      match this
      case Some(v) => v
      case None => default
    }
  }

  /** A Python float: a finite value, or one of the constants json.loads
      accepts for NaN, Infinity and -Infinity. */
  datatype Float = Finite(r: real) | PosInfinity | NegInfinity | NaN

  datatype JSON =
    | JNull
    | JBool(b: bool)
    | JInt(i: int)
    | JFloat(f: Float)
    | JStr(s: string)
    | JArr(items: seq<JSON>)
    | JObj(members: seq<Member>)

  datatype Member = Member(key: string, value: JSON)

  /** Pair `i` of `ms` binds `key`. */
  predicate BindsAt(ms: seq<Member>, key: string, i: int) {
    0 <= i < |ms| && ms[i].key == key
  }

  /** Pair `i` of `ms` is the last one that binds `key`. */
  predicate LastBindingAt(ms: seq<Member>, key: string, i: int) {
    BindsAt(ms, key, i) && forall j :: i < j < |ms| ==> ms[j].key != key
  }

  /** `d[key]` for the dict built from the pairs `ms`; None when the key is missing. */
  function Get(ms: seq<Member>, key: string): (r: Option<JSON>)
    ensures r.Some? <==> exists i :: BindsAt(ms, key, i)
    ensures r.Some? ==> exists i :: LastBindingAt(ms, key, i) && ms[i].value == r.value
  {
    if |ms| == 0 then None
    else if ms[|ms| - 1].key == key then
      assert LastBindingAt(ms, key, |ms| - 1);
      Some(ms[|ms| - 1].value)
    else
      var front := ms[..|ms| - 1];
      var r := Get(front, key);
      DroppedLastBinding(ms, front, key);
      r
  }

  /** When the last pair does not bind `key`, dropping it changes no binding of `key`. */
  lemma DroppedLastBinding(ms: seq<Member>, front: seq<Member>, key: string)
    requires |ms| > 0 && front == ms[..|ms| - 1] && ms[|ms| - 1].key != key
    ensures forall i :: BindsAt(front, key, i) <==> BindsAt(ms, key, i)
    ensures forall i :: LastBindingAt(front, key, i) ==> LastBindingAt(ms, key, i)
  {
  }

  /** json.dumps with allow_nan=False accepts the value: no NaN or infinity
      anywhere in it. A dict is checked as dict(pairs) holds it, so a pair
      that a later pair with the same key overrides does not matter. */
  predicate Encodable(j: JSON)
    decreases j
  {
    match j
    case JFloat(f) => f.Finite?
    case JArr(items) => forall i | 0 <= i < |items| :: Encodable(items[i])
    case JObj(ms) => forall i | 0 <= i < |ms| && LastBindingAt(ms, ms[i].key, i) :: Encodable(ms[i].value)
    case _ => true
  }

  /** One step into a value: a list index or a dict key. */
  datatype Step = Index(n: nat) | Key(k: string)

  /** Following `path` from `j`, each key looked up as `d[key]` would, ends
      at NaN or an infinity. */
  predicate NonFiniteAt(j: JSON, path: seq<Step>)
    decreases |path|
  {
    if |path| == 0 then j.JFloat? && !j.f.Finite?
    else match path[0]
      case Index(n) => j.JArr? && n < |j.items| && NonFiniteAt(j.items[n], path[1..])
      case Key(k) => j.JObj? && Get(j.members, k).Some? && NonFiniteAt(Get(j.members, k).value, path[1..])
  }

  /** A key has at most one last binding. */
  lemma LastBindingUnique(ms: seq<Member>, key: string, i: int, k: int)
    requires LastBindingAt(ms, key, i) && LastBindingAt(ms, key, k)
    ensures i == k
  {
  }

  /** Two pair lists with the same keys in the same order find a key at the
      same last binding. */
  lemma SameKeysLookup(ms: seq<Member>, ns: seq<Member>, key: string)
    requires |ms| == |ns| && forall i | 0 <= i < |ms| :: ns[i].key == ms[i].key
    ensures Get(ns, key).Some? <==> Get(ms, key).Some?
    ensures Get(ms, key).Some? ==>
      exists i :: LastBindingAt(ms, key, i) && Get(ms, key).value == ms[i].value && Get(ns, key).value == ns[i].value
  {
    assert forall i :: BindsAt(ns, key, i) <==> BindsAt(ms, key, i);
    if Get(ms, key).Some? {
      var i :| LastBindingAt(ms, key, i) && ms[i].value == Get(ms, key).value;
      assert Get(ns, key).Some?;
      var k :| LastBindingAt(ns, key, k) && ns[k].value == Get(ns, key).value;
      assert LastBindingAt(ms, key, k);
      LastBindingUnique(ms, key, i, k);
    }
  }

  /** A value is encodable exactly when no path reaches NaN or an infinity. */
  lemma {:induction false} EncodableIffNoNonFinite(j: JSON)
    ensures Encodable(j) <==> !exists p :: NonFiniteAt(j, p)
    decreases j
  {
    if Encodable(j) {
      forall p | NonFiniteAt(j, p) ensures false {
        EncodableHasNoNonFinite(j, p);
      }
    } else {
      match j
      case JFloat(f) =>
        var p: seq<Step> := [];
        assert NonFiniteAt(j, p);
        assert exists p :: NonFiniteAt(j, p);
      case JArr(items) =>
        var i :| 0 <= i < |items| && !Encodable(items[i]);
        EncodableIffNoNonFinite(items[i]);
        var q :| NonFiniteAt(items[i], q);
        var p := [Index(i)] + q;
        assert p[1..] == q;
        assert NonFiniteAt(j, p);
        assert exists p :: NonFiniteAt(j, p);
      case JObj(ms) =>
        var i :| 0 <= i < |ms| && LastBindingAt(ms, ms[i].key, i) && !Encodable(ms[i].value);
        EncodableIffNoNonFinite(ms[i].value);
        var q :| NonFiniteAt(ms[i].value, q);
        var found := Get(ms, ms[i].key);
        var k :| LastBindingAt(ms, ms[i].key, k) && ms[k].value == found.value;
        LastBindingUnique(ms, ms[i].key, i, k);
        var p := [Key(ms[i].key)] + q;
        assert p[1..] == q;
        assert NonFiniteAt(j, p);
        assert exists p :: NonFiniteAt(j, p);
      case _ =>
    }
  }

  /** No path into an encodable value reaches NaN or an infinity. */
  lemma {:induction false} EncodableHasNoNonFinite(j: JSON, p: seq<Step>)
    requires Encodable(j)
    ensures !NonFiniteAt(j, p)
    decreases |p|
  {
    if |p| > 0 && NonFiniteAt(j, p) {
      match p[0]
      case Index(n) =>
        EncodableHasNoNonFinite(j.items[n], p[1..]);
      case Key(key) =>
        var ms := j.members;
        var k :| LastBindingAt(ms, key, k) && ms[k].value == Get(ms, key).value;
        assert LastBindingAt(ms, ms[k].key, k);
        EncodableHasNoNonFinite(ms[k].value, p[1..]);
    }
  }

  /** Python's truth value of a decoded value (`if x:`). */
  predicate Truthy(j: JSON) {
    match j
    case JNull => false
    case JBool(b) => b
    case JInt(i) => i != 0
    case JFloat(f) => f != Finite(0.0)
    case JStr(s) => |s| > 0
    case JArr(items) => |items| > 0
    case JObj(ms) => |ms| > 0
  }

  /** The name of the Python type json.loads gives this value, as Python's
      error messages print it. */
  function TypeName(j: JSON): string {
    match j
    case JNull => "NoneType"
    case JBool(_) => "bool"
    case JInt(_) => "int"
    case JFloat(_) => "float"
    case JStr(_) => "str"
    case JArr(_) => "list"
    case JObj(_) => "dict"
  }
}

=== FILE: python.dfy ===
/**
 The parts of Python's semantics the relay's request handling depends on:
 the exceptions its steps can raise, str containment, and what `x in v`,
 `v[x]` and `v.get(x, d)` do for each kind of decoded JSON value. Error
 messages follow CPython 3.11 and later.
 */
module Python {
  import opened Json

  /** An exception, by the class the handler's `except` clauses tell apart. */
  datatype Exception =
    | JSONDecodeError(msg: string)
    | UnicodeDecodeError(msg: string)
    | TypeError(msg: string)
    | AttributeError(msg: string)
    | KeyError(key: string)
    | OtherError(msg: string)  // RecursionError, the HTTP client's transport errors, ...

  /** `str(e)`. For a KeyError this is the repr of the key, written here for
      keys without quotes or backslashes. */
  function Str(e: Exception): string {
    match e
    case KeyError(k) => "'" + k + "'"
    case _ => e.msg
  }

  /** The outcome of a Python step: a value, or the exception it raised. */
  datatype Attempt<+T> = Done(value: T) | Raised(exception: Exception) {
    predicate IsFailure() {
      Raised?
    }

    function PropagateFailure<U>(): Attempt<U>
      requires Raised?
    {
      Raised(exception)
    }

    function Extract(): T
      requires Done?
    {
      value
    }
  }

  /** `needle` occurs in `hay` starting at index `i`. */
  predicate OccursAt(hay: string, needle: string, i: int) {
    0 <= i && i + |needle| <= |hay| && hay[i..i + |needle|] == needle
  }

  /** `needle in hay` for two str values: a substring test. */
  function StrContains(hay: string, needle: string): (r: bool)
    ensures r <==> exists i :: OccursAt(hay, needle, i)
    decreases |hay|
  {
    if |needle| > |hay| then false
    else if hay[..|needle|] == needle then
      assert OccursAt(hay, needle, 0);
      true
    else
      var tail := hay[1..];
      ShiftedOccurrence(hay, tail, needle);
      StrContains(tail, needle)
  }

  /** When `needle` is not a prefix of `hay`, its occurrences in `hay` are
      those in `hay[1..]`, one index further on. */
  lemma ShiftedOccurrence(hay: string, tail: string, needle: string)
    requires |hay| > 0 && tail == hay[1..]
    requires |needle| <= |hay| && hay[..|needle|] != needle
    ensures (exists i :: OccursAt(hay, needle, i)) <==> (exists i :: OccursAt(tail, needle, i))
  {
    forall i | OccursAt(hay, needle, i) ensures OccursAt(tail, needle, i - 1) {
      assert i != 0;
      assert tail[i - 1..i - 1 + |needle|] == hay[i..i + |needle|];
    }
    forall i | OccursAt(tail, needle, i) ensures OccursAt(hay, needle, i + 1) {
      assert tail[i..i + |needle|] == hay[i + 1..i + 1 + |needle|];
    }
  }

  /** `key in container` for a str key and a decoded value: a key test on a
      dict, an element test on a list, a substring test on a str, and a
      TypeError on every other type. */
  function In(key: string, container: JSON): (r: Attempt<bool>)
    ensures r.Raised? <==> container.JNull? || container.JBool? || container.JInt? || container.JFloat?
    ensures r.Raised? ==> r.exception == TypeError("argument of type '" + TypeName(container) + "' is not iterable")
    ensures container.JObj? ==> r == Done(exists i :: BindsAt(container.members, key, i))
    ensures container.JArr? ==> r == Done(exists i :: 0 <= i < |container.items| && container.items[i] == JStr(key))
    ensures container.JStr? ==> r == Done(exists i :: OccursAt(container.s, key, i))
  {
    match container
    case JObj(ms) => Done(Get(ms, key).Some?)
    case JArr(items) => Done(JStr(key) in items)
    case JStr(s) => Done(StrContains(s, key))
    case _ => Raised(TypeError("argument of type '" + TypeName(container) + "' is not iterable"))
  }

  /** `container[key]` for a str key: a lookup on a dict, a TypeError on
      every other type (lists and strs take only integer indices). */
  function Subscript(container: JSON, key: string): (r: Attempt<JSON>)
    ensures r.Done? <==> container.JObj? && exists i :: BindsAt(container.members, key, i)
    ensures r.Done? ==> exists i :: LastBindingAt(container.members, key, i) && container.members[i].value == r.value
    ensures container.JObj? && r.Raised? ==> r.exception == KeyError(key)
    ensures !container.JObj? ==> r.Raised? && r.exception.TypeError?
  {
    match container
    case JObj(ms) =>
      (match Get(ms, key)
       case Some(v) => Done(v)
       case None => Raised(KeyError(key)))
    case JArr(_) => Raised(TypeError("list indices must be integers or slices, not str"))
    case JStr(_) => Raised(TypeError("string indices must be integers, not 'str'"))
    case _ => Raised(TypeError("'" + TypeName(container) + "' object is not subscriptable"))
  }

  /** `container.get(key, default)`: only a dict has the method; on any
      other value the attribute lookup itself fails. */
  function DictGet(container: JSON, key: string, default: JSON): (r: Attempt<JSON>)
    ensures r.Raised? <==> !container.JObj?
    ensures r.Raised? ==> r.exception == AttributeError("'" + TypeName(container) + "' object has no attribute 'get'")
    ensures container.JObj? && (exists i :: BindsAt(container.members, key, i)) ==>
      exists i :: LastBindingAt(container.members, key, i) && container.members[i].value == r.value
    ensures container.JObj? && !(exists i :: BindsAt(container.members, key, i)) ==> r == Done(default)
  {
    match container
    case JObj(ms) => Done(Get(ms, key).GetOr(default))
    case _ => Raised(AttributeError("'" + TypeName(container) + "' object has no attribute 'get'"))
  }
}

=== FILE: relay.dfy ===
/**
 The relay: a POST to /proxy/{endpoint} is turned into one authenticated
 POST to the configured upstream at upstream + "/" + endpoint, and the
 upstream's answer (or the failure) is turned into the JSON the caller gets.
 The UTF-8 decoder, the JSON codec and the network are parameters: the
 relay's own logic is the choice of what to forward and what to answer.
 Two small handlers, /health and /openapi.json, pick their answer from
 the Accept header.
 */
module Relay {
  import opened Json
  import opened Python

  newtype byte = x: int | 0 <= x < 256

  const FunctionCallKey: string := "function_call"
  const NameKey: string := "name"
  const ParametersKey: string := "parameters"

  /** Upstream base URL used when UPSTREAM_URL is not set. */
  const DefaultUpstream: string := "http://localhost:8000/mcp"

  datatype Credentials = Credentials(username: string, password: string)

  /** The HTTP Basic credentials sent on every upstream call; not configurable. */
  const FixedAuth: Credentials := Credentials("instabids", "secure123password")

  const JsonContentType: string := "application/json"
  const TimeoutSeconds: nat := 30

  /** Read once at start-up, the same for every request. */
  datatype Config = Config(upstream: string, auth: Credentials)

  /** The configuration in force, given the value of UPSTREAM_URL if set. */
  function ConfigFromEnv(upstreamUrl: Option<string>): Config {
    Config(upstreamUrl.GetOr(DefaultUpstream), FixedAuth)
  }

  /** The library calls the handler makes: `bytes.decode('utf-8')`,
      `json.loads` and `json.dumps`. */
  datatype Codec = Codec(
    decodeUtf8: seq<byte> -> Attempt<string>,
    loads: string -> Attempt<JSON>,
    dumps: JSON -> Attempt<string>)

  /** What the handler decided to send upstream, and whether it warned that
      the envelope's name differs from the endpoint. */
  datatype Prepared = Prepared(payload: string, nameMismatch: bool)

  /** Unwrapping the value of "function_call": forward its "parameters"
      (an empty dict when absent), whatever its "name" says. */
  function Unwrap(dumps: JSON -> Attempt<string>, endpoint: string, call: JSON): Attempt<Prepared> {
    var name :- DictGet(call, NameKey, JNull);
    // the first lookup succeeded, so `call` is a dict and this one cannot raise
    var parameters := DictGet(call, ParametersKey, JObj([])).value;
    var payload :- dumps(parameters);
    Done(Prepared(payload, Truthy(name) && name != JStr(endpoint)))
  }

  /** What the inner `try` does once json.loads has produced `body`: the
      envelope test, then unwrapping or forwarding the text as it is. */
  function Interpret(dumps: JSON -> Attempt<string>, endpoint: string, text: string, body: JSON): Attempt<Prepared> {
    var isEnvelope :- In(FunctionCallKey, body);
    if isEnvelope then
      var call :- Subscript(body, FunctionCallKey);
      Unwrap(dumps, endpoint, call)
    else
      Done(Prepared(text, false))
  }

  /** The forward payload, given the decoded body text and what json.loads
      made of it. The inner `try` covers parsing and interpreting alike: a
      JSONDecodeError from any of its steps means the text goes as it is;
      any other exception escapes it and fails the request. */
  function ChoosePayload(dumps: JSON -> Attempt<string>, endpoint: string, text: string, parsed: Attempt<JSON>): Attempt<Prepared> {
    var attempt := match parsed
      case Raised(e) => Raised(e)
      case Done(body) => Interpret(dumps, endpoint, text, body);
    match attempt
    case Raised(JSONDecodeError(_)) => Done(Prepared(text, false))
    case _ => attempt
  }

  function ForwardBody(codec: Codec, endpoint: string, text: string): Attempt<Prepared> {
    ChoosePayload(codec.dumps, endpoint, text, codec.loads(text))
  }

  /** Everything the handler does before contacting the upstream. */
  function Prepare(codec: Codec, endpoint: string, body: seq<byte>): Attempt<Prepared> {
    var text :- codec.decodeUtf8(body);
    ForwardBody(codec, endpoint, text)
  }

  /** The one request the relay sends upstream. */
  datatype Outbound = Outbound(
    verb: string,
    url: string,
    body: string,
    contentType: string,
    auth: Credentials,
    timeoutSeconds: nat)

  /** The upstream URL for an endpoint: no check, no escaping. */
  function TargetUrl(cfg: Config, endpoint: string): string {
    cfg.upstream + "/" + endpoint
  }

  function Post(cfg: Config, endpoint: string, payload: string): Outbound {
    Outbound("POST", TargetUrl(cfg, endpoint), payload, JsonContentType, cfg.auth, TimeoutSeconds)
  }

  /** How the upstream call ended: the client raised (connection refused,
      timeout, ...), or a reply came back, with what `response.json()` made
      of it and its text. */
  datatype UpstreamOutcome =
    | TransportFailure(exception: Exception)
    | Reply(status: int, parsed: Attempt<JSON>, text: string)

  /** The dict the handler returns when anything raised. */
  function ErrorResult(message: string): JSON {
    JObj([Member("error", JStr(message)), Member("status", JInt(500))])
  }

  /** The dict the handler returns for a reply that is not JSON. */
  function NonJsonResult(text: string, status: int): JSON {
    JObj([Member("response", JStr(text)), Member("status", JInt(status)), Member("error", JNull)])
  }

  /** What the caller gets back for an upstream outcome. */
  function Translate(outcome: UpstreamOutcome): JSON {
    match outcome
    case TransportFailure(e) => ErrorResult(Str(e))
    case Reply(_, Done(body), _) => body
    case Reply(status, Raised(JSONDecodeError(_)), text) => NonJsonResult(text, status)
    case Reply(_, Raised(e), _) => ErrorResult(Str(e))
  }

  /** An HTTP response as the framework sends it. */
  datatype Response =
    | JsonResponse(status: int, body: JSON)
    | RawResponse(status: int, mediaType: string, content: string)

  /** One call of the proxy handler: the upstream request it made, if any,
      and the value it returned. */
  datatype Exchange = Exchange(sent: Option<Outbound>, returned: JSON)

  /** POST /proxy/{endpoint} with body `body`; `network` answers the upstream call. */
  function Proxy(cfg: Config, codec: Codec, network: Outbound -> UpstreamOutcome, endpoint: string, body: seq<byte>): Exchange {
    match Prepare(codec, endpoint, body)
    case Raised(e) => Exchange(None, ErrorResult(Str(e)))
    case Done(prepared) =>
      var request := Post(cfg, endpoint, prepared.payload);
      Exchange(Some(request), Translate(network(request)))
  }

  const HealthMediaType: string := "application/health+json"
  const PlainTextMediaType: string := "text/plain; charset=utf-8"

  /** The framework's answer when rendering a response raised. */
  const InternalServerError: Response := RawResponse(500, PlainTextMediaType, "Internal Server Error")

  /** A dict key FastAPI's jsonable_encoder leaves out by default
      (`sqlalchemy_safe`): one that starts with "_sa". */
  predicate SqlAlchemyKey(k: string) {
    |k| >= 3 && k[..3] == "_sa"
  }

  /** The pairs whose key the encoder keeps, in their order. */
  function Kept(ms: seq<Member>): seq<Member> {
    if |ms| == 0 then []
    else if SqlAlchemyKey(ms[|ms| - 1].key) then Kept(ms[..|ms| - 1])
    else Kept(ms[..|ms| - 1]) + [ms[|ms| - 1]]
  }

  /** What jsonable_encoder makes of a returned value before it is rendered:
      the same value with every "_sa" key left out, at any depth. */
  function Rendered(j: JSON): JSON
    decreases j
  {
    match j
    case JArr(items) => JArr(seq(|items|, i requires 0 <= i < |items| => Rendered(items[i])))
    case JObj(ms) => JObj(Kept(seq(|ms|, i requires 0 <= i < |ms| => Member(ms[i].key, Rendered(ms[i].value)))))
    case _ => j
  }

  /** A path that takes no "_sa" key. */
  predicate VisiblePath(p: seq<Step>) {
    forall i | 0 <= i < |p| :: p[i].Key? ==> !SqlAlchemyKey(p[i].k)
  }

  /** Looking a key up in the pairs `d[key]` would find after appending one pair. */
  lemma GetAppend(ms: seq<Member>, m: Member, key: string)
    ensures Get(ms + [m], key) == if m.key == key then Some(m.value) else Get(ms, key)
  {
    var ns := ms + [m];
    assert ns[..|ns| - 1] == ms;
  }

  /** The encoder's dict holds the same value for every key it keeps. */
  lemma {:induction false} KeptLookup(ms: seq<Member>, key: string)
    ensures Get(Kept(ms), key) == if SqlAlchemyKey(key) then None else Get(ms, key)
    decreases |ms|
  {
    if |ms| > 0 {
      var front, last := ms[..|ms| - 1], ms[|ms| - 1];
      assert ms == front + [last];
      KeptLookup(front, key);
      GetAppend(front, last, key);
      if !SqlAlchemyKey(last.key) {
        GetAppend(Kept(front), last, key);
      }
    }
  }

  /** A key of a rendered dict holds the rendered value, unless the encoder
      leaves the key out. */
  lemma RenderedLookup(ms: seq<Member>, key: string)
    ensures var r := Get(Rendered(JObj(ms)).members, key);
      && (r.Some? <==> !SqlAlchemyKey(key) && Get(ms, key).Some?)
      && (r.Some? ==> r.value == Rendered(Get(ms, key).value))
  {
    var mapped := seq(|ms|, i requires 0 <= i < |ms| => Member(ms[i].key, Rendered(ms[i].value)));
    KeptLookup(mapped, key);
    SameKeysLookup(ms, mapped, key);
  }

  /** Rendering keeps exactly the paths to NaN or an infinity that take no
      "_sa" key. */
  lemma {:induction false} RenderedNonFinite(j: JSON, p: seq<Step>)
    ensures NonFiniteAt(Rendered(j), p) <==> VisiblePath(p) && NonFiniteAt(j, p)
    decreases |p|
  {
    if |p| > 0 {
      var rest := p[1..];
      assert VisiblePath(p) <==> (p[0].Key? ==> !SqlAlchemyKey(p[0].k)) && VisiblePath(rest) by {
        if (p[0].Key? ==> !SqlAlchemyKey(p[0].k)) && VisiblePath(rest) {
          forall i | 0 < i < |p| ensures p[i].Key? ==> !SqlAlchemyKey(p[i].k) {
            assert p[i] == rest[i - 1];
          }
        }
      }
      match p[0]
      case Index(n) =>
        if j.JArr? && n < |j.items| {
          RenderedNonFinite(j.items[n], rest);
        }
      case Key(key) =>
        if j.JObj? {
          RenderedLookup(j.members, key);
          if !SqlAlchemyKey(key) && Get(j.members, key).Some? {
            RenderedNonFinite(Get(j.members, key).value, rest);
          }
        }
    }
  }

  /** How the framework answers for a handler that returned `returned`: it
      renders the value through jsonable_encoder and json.dumps with
      allow_nan=False, and answers with a plain-text 500 if that raises. */
  function Serve(returned: JSON): (r: Response)
    ensures r.JsonResponse? <==> !exists p :: VisiblePath(p) && NonFiniteAt(returned, p)
    ensures r.JsonResponse? ==> r == JsonResponse(200, Rendered(returned))
    ensures r.RawResponse? ==> r == InternalServerError
  {
    var rendered := Rendered(returned);
    EncodableIffNoNonFinite(rendered);
    assert forall p :: NonFiniteAt(rendered, p) <==> VisiblePath(p) && NonFiniteAt(returned, p) by {
      forall p ensures NonFiniteAt(rendered, p) <==> VisiblePath(p) && NonFiniteAt(returned, p) {
        RenderedNonFinite(returned, p);
      }
    }
    assert (exists p :: NonFiniteAt(rendered, p)) <==> exists p :: VisiblePath(p) && NonFiniteAt(returned, p);
    if Encodable(rendered) then JsonResponse(200, rendered) else InternalServerError
  }

  /** GET /health; `accept` is the Accept header, if any. */
  function Health(accept: Option<string>): (r: Response)
    ensures r.status == 204 <==> exists i :: OccursAt(accept.GetOr(""), "application/health", i)
    ensures r.status == 204 ==> r == RawResponse(204, HealthMediaType, "")
    ensures r.status != 204 ==> r == JsonResponse(200, JObj([Member("ok", JBool(true))]))
  {
    if StrContains(accept.GetOr(""), "application/health") then
      RawResponse(204, HealthMediaType, "")
    else
      JsonResponse(200, JObj([Member("ok", JBool(true))]))
  }

  /** The message of the TypeError Starlette's JSONResponse raises when
      given a `gzip` keyword it does not take. */
  const GzipKeywordError: string := "JSONResponse.__init__() got an unexpected keyword argument 'gzip'"

  /** GET /openapi.json as written: the JSON branch passes `gzip=True` to
      JSONResponse, which raises. `indented` is `json.dumps(_, indent=2)`. */
  function OpenApiAsWritten(schema: JSON, accept: Option<string>, indented: JSON -> string): (r: Attempt<Response>)
    ensures r.Done? <==> exists i :: OccursAt(accept.GetOr(""), "text/", i)
    ensures r.Done? ==> r.value == RawResponse(200, PlainTextMediaType, indented(schema))
    ensures r.Raised? ==> r.exception == TypeError(GzipKeywordError)
  {
    if StrContains(accept.GetOr(""), "text/") then
      Done(RawResponse(200, PlainTextMediaType, indented(schema)))
    else
      Raised(TypeError(GzipKeywordError))
  }

  /** GET /openapi.json as intended: indented text when the Accept header
      mentions a text type, the schema as JSON otherwise. */
  function OpenApi(schema: JSON, accept: Option<string>, indented: JSON -> string): (r: Response)
    ensures r.RawResponse? <==> exists i :: OccursAt(accept.GetOr(""), "text/", i)
    ensures r.RawResponse? ==> r == RawResponse(200, PlainTextMediaType, indented(schema))
    ensures r.JsonResponse? ==> r == JsonResponse(200, schema)
  {
    if StrContains(accept.GetOr(""), "text/") then
      RawResponse(200, PlainTextMediaType, indented(schema))
    else
      JsonResponse(200, schema)
  }
}

=== FILE: relay_properties.dfy ===
/**
 What the relay promises about one request: which payload it forwards,
 which requests never reach the upstream and what they get back, the
 single upstream call it makes, and how the upstream's outcome is turned
 into the caller's answer.
 */
module RelayProperties {
  import opened Json
  import opened Python
  import opened Relay

  /** The decoded value names no "function_call": a dict without that key,
      a list without that string, or a str without that substring. */
  ghost predicate PlainBody(j: JSON) {
    || (j.JObj? && forall i :: 0 <= i < |j.members| ==> j.members[i].key != FunctionCallKey)
    || (j.JArr? && forall i :: 0 <= i < |j.items| ==> j.items[i] != JStr(FunctionCallKey))
    || (j.JStr? && forall i :: !OccursAt(j.s, FunctionCallKey, i))
  }

  /** The keys of a dict, in order. */
  function Keys(ms: seq<Member>): (keys: seq<string>)
    ensures |keys| == |ms| && forall i :: 0 <= i < |ms| ==> keys[i] == ms[i].key
  {
    if |ms| == 0 then [] else Keys(ms[..|ms| - 1]) + [ms[|ms| - 1].key]
  }

  // ---- The forward payload ----

  /** A body that json.loads rejects is forwarded exactly as received. */
  lemma NotJsonForwardedVerbatim(codec: Codec, endpoint: string, text: string)
    requires codec.loads(text).Raised? && codec.loads(text).exception.JSONDecodeError?
    ensures ForwardBody(codec, endpoint, text) == Done(Prepared(text, false))
  {
  }

  /** An empty body is not JSON, so the upstream is sent an empty body. */
  lemma EmptyBodyForwardedVerbatim(cfg: Config, codec: Codec, network: Outbound -> UpstreamOutcome, endpoint: string)
    requires codec.decodeUtf8([]) == Done("")
    requires codec.loads("").Raised? && codec.loads("").exception.JSONDecodeError?
    ensures Proxy(cfg, codec, network, endpoint, []).sent == Some(Post(cfg, endpoint, ""))
  {
  }

  /** JSON that names no "function_call" is forwarded as the original text,
      not re-serialised. */
  lemma PlainJsonForwardedVerbatim(codec: Codec, endpoint: string, text: string, j: JSON)
    requires codec.loads(text) == Done(j) && PlainBody(j)
    ensures ForwardBody(codec, endpoint, text) == Done(Prepared(text, false))
  {
  }

  /** A dict whose "function_call" is a dict is replaced by the serialisation
      of that dict's "parameters", or of {} when there is none; the value
      serialised is never the whole envelope. Should serialising raise a
      JSONDecodeError, the inner handler catches it and the text goes as it
      is; any other exception fails the request. */
  lemma EnvelopeUnwrapped(codec: Codec, endpoint: string, text: string, ms: seq<Member>, fs: seq<Member>)
    requires codec.loads(text) == Done(JObj(ms))
    requires Get(ms, FunctionCallKey) == Some(JObj(fs))
    ensures var parameters := Get(fs, ParametersKey).GetOr(JObj([]));
      && parameters != JObj(ms)
      && (Get(fs, ParametersKey).None? ==> parameters == JObj([]))
      && (codec.dumps(parameters).Done? ==>
            ForwardBody(codec, endpoint, text).Done? &&
            ForwardBody(codec, endpoint, text).value.payload == codec.dumps(parameters).value)
      && (codec.dumps(parameters).Raised? && codec.dumps(parameters).exception.JSONDecodeError? ==>
            ForwardBody(codec, endpoint, text) == Done(Prepared(text, false)))
      && (codec.dumps(parameters).Raised? && !codec.dumps(parameters).exception.JSONDecodeError? ==>
            ForwardBody(codec, endpoint, text) == Raised(codec.dumps(parameters).exception))
  {
  }

  /** The envelope's "name" (absent, empty, or not the endpoint) and the
      endpoint itself never change the payload nor make the request fail;
      they only decide whether a warning is logged. */
  lemma NameOnlyWarns(dumps: JSON -> Attempt<string>, endpoint1: string, endpoint2: string, fs1: seq<Member>, fs2: seq<Member>)
    requires Get(fs1, ParametersKey) == Get(fs2, ParametersKey)
    ensures var u1, u2 := Unwrap(dumps, endpoint1, JObj(fs1)), Unwrap(dumps, endpoint2, JObj(fs2));
      && u1.Done? == u2.Done?
      && (u1.Done? ==> u1.value.payload == u2.value.payload)
      && (u1.Raised? ==> u1 == u2)
    ensures var name := Get(fs1, NameKey).GetOr(JNull);
      Unwrap(dumps, endpoint1, JObj(fs1)).Done? ==>
        (Unwrap(dumps, endpoint1, JObj(fs1)).value.nameMismatch <==> Truthy(name) && name != JStr(endpoint1))
  {
  }

  /** The endpoint only feeds the warning: the same body gives the same
      payload, or the same failure, on every endpoint. */
  lemma PayloadIgnoresEndpoint(codec: Codec, endpoint1: string, endpoint2: string, text: string)
    ensures var f1, f2 := ForwardBody(codec, endpoint1, text), ForwardBody(codec, endpoint2, text);
      && f1.Done? == f2.Done?
      && (f1.Done? ==> f1.value.payload == f2.value.payload)
      && (f1.Raised? ==> f1 == f2)
  {
  }

  // ---- Requests that never reach the upstream ----

  /** The request fails before any upstream call exactly when preparing the
      payload raised, and then the answer is {error, status: 500}. */
  lemma RejectedExactlyWhenPreparationRaises(cfg: Config, codec: Codec, network: Outbound -> UpstreamOutcome, endpoint: string, body: seq<byte>)
    ensures Proxy(cfg, codec, network, endpoint, body).sent.None? <==> Prepare(codec, endpoint, body).Raised?
    ensures Prepare(codec, endpoint, body).Raised? ==>
      Proxy(cfg, codec, network, endpoint, body).returned
        == ErrorResult(Str(Prepare(codec, endpoint, body).exception))
  {
  }

  /** A body that is not UTF-8. */
  lemma NonUtf8BodyRejected(cfg: Config, codec: Codec, network: Outbound -> UpstreamOutcome, endpoint: string, body: seq<byte>)
    requires codec.decodeUtf8(body).Raised?
    ensures Proxy(cfg, codec, network, endpoint, body)
      == Exchange(None, ErrorResult(Str(codec.decodeUtf8(body).exception)))
  {
  }

  /** json.loads raised something other than JSONDecodeError (a
      RecursionError on deep nesting, say): not caught by the inner handler. */
  lemma LoaderFailureRejected(cfg: Config, codec: Codec, network: Outbound -> UpstreamOutcome, endpoint: string, body: seq<byte>, text: string)
    requires codec.decodeUtf8(body) == Done(text)
    requires codec.loads(text).Raised? && !codec.loads(text).exception.JSONDecodeError?
    ensures Proxy(cfg, codec, network, endpoint, body)
      == Exchange(None, ErrorResult(Str(codec.loads(text).exception)))
  {
  }

  /** A top-level number, bool or null: `in` raises TypeError. */
  lemma ScalarBodyRejected(cfg: Config, codec: Codec, network: Outbound -> UpstreamOutcome, endpoint: string, body: seq<byte>, text: string, j: JSON)
    requires codec.decodeUtf8(body) == Done(text) && codec.loads(text) == Done(j)
    requires j.JNull? || j.JBool? || j.JInt? || j.JFloat?
    ensures Proxy(cfg, codec, network, endpoint, body)
      == Exchange(None, ErrorResult("argument of type '" + TypeName(j) + "' is not iterable"))
  {
  }

  /** A top-level string containing "function_call": `in` is true, then
      indexing a str with a str raises TypeError. */
  lemma StringEnvelopeRejected(cfg: Config, codec: Codec, network: Outbound -> UpstreamOutcome, endpoint: string, body: seq<byte>, text: string, s: string, k: int)
    requires codec.decodeUtf8(body) == Done(text) && codec.loads(text) == Done(JStr(s))
    requires OccursAt(s, FunctionCallKey, k)
    ensures Proxy(cfg, codec, network, endpoint, body)
      == Exchange(None, ErrorResult("string indices must be integers, not 'str'"))
  {
  }

  /** A top-level list with the element "function_call": `in` is true, then
      indexing a list with a str raises TypeError. */
  lemma ArrayEnvelopeRejected(cfg: Config, codec: Codec, network: Outbound -> UpstreamOutcome, endpoint: string, body: seq<byte>, text: string, items: seq<JSON>, k: int)
    requires codec.decodeUtf8(body) == Done(text) && codec.loads(text) == Done(JArr(items))
    requires 0 <= k < |items| && items[k] == JStr(FunctionCallKey)
    ensures Proxy(cfg, codec, network, endpoint, body)
      == Exchange(None, ErrorResult("list indices must be integers or slices, not str"))
  {
  }

  /** A "function_call" whose value is not a dict: `.get` raises AttributeError. */
  lemma NonObjectCallRejected(cfg: Config, codec: Codec, network: Outbound -> UpstreamOutcome, endpoint: string, body: seq<byte>, text: string, ms: seq<Member>, k: int, call: JSON)
    requires codec.decodeUtf8(body) == Done(text) && codec.loads(text) == Done(JObj(ms))
    requires LastBindingAt(ms, FunctionCallKey, k) && ms[k].value == call && !call.JObj?
    ensures Proxy(cfg, codec, network, endpoint, body)
      == Exchange(None, ErrorResult("'" + TypeName(call) + "' object has no attribute 'get'"))
  {
  }

  // ---- The upstream call ----

  /** The endpoint is carried into the URL unchanged: it is everything after
      the base URL and a slash, so different endpoints give different URL strings. */
  lemma TargetUrlKeepsEndpoint(cfg: Config, endpoint1: string, endpoint2: string)
    ensures |TargetUrl(cfg, endpoint1)| == |cfg.upstream| + 1 + |endpoint1|
    ensures TargetUrl(cfg, endpoint1)[..|cfg.upstream| + 1] == cfg.upstream + "/"
    ensures TargetUrl(cfg, endpoint1)[|cfg.upstream| + 1..] == endpoint1
    ensures TargetUrl(cfg, endpoint1) == TargetUrl(cfg, endpoint2) ==> endpoint1 == endpoint2
  {
  }

  /** A request whose payload could be prepared makes exactly one POST, to
      the base URL plus "/" plus the endpoint, with that payload, a JSON
      content type, the fixed credentials and a 30 second timeout; the caller
      gets the translation of what came back. */
  lemma SinglePostToEndpoint(upstreamUrl: Option<string>, codec: Codec, network: Outbound -> UpstreamOutcome, endpoint: string, body: seq<byte>)
    requires Prepare(codec, endpoint, body).Done?
    ensures var cfg := ConfigFromEnv(upstreamUrl);
      var x := Proxy(cfg, codec, network, endpoint, body);
      && x.sent.Some?
      && x.sent.value.verb == "POST"
      && x.sent.value.url == upstreamUrl.GetOr("http://localhost:8000/mcp") + "/" + endpoint
      && x.sent.value.body == Prepare(codec, endpoint, body).value.payload
      && x.sent.value.contentType == "application/json"
      && x.sent.value.auth == Credentials("instabids", "secure123password")
      && x.sent.value.timeoutSeconds == 30
      && x.returned == Translate(network(x.sent.value))
  {
  }

  // ---- The answer ----

  /** Every path through the handler returns a value, so no exception
      reaches the framework. The value is answered as JSON with status 200
      (as the encoder renders it) unless it is an upstream JSON reply in
      which a path that takes no "_sa" key reaches NaN or an infinity; the
      error and non-JSON dicts go out exactly as returned. */
  lemma AnsweredAsJsonUnlessUpstreamNonFinite(cfg: Config, codec: Codec, network: Outbound -> UpstreamOutcome, endpoint: string, body: seq<byte>)
    ensures var x := Proxy(cfg, codec, network, endpoint, body);
      Serve(x.returned) == JsonResponse(200, Rendered(x.returned))
      || (&& x.sent.Some?
          && network(x.sent.value).Reply?
          && network(x.sent.value).parsed.Done?
          && (exists p :: VisiblePath(p) && NonFiniteAt(network(x.sent.value).parsed.value, p))
          && Serve(x.returned) == InternalServerError)
    ensures var x := Proxy(cfg, codec, network, endpoint, body);
      !(x.sent.Some? && network(x.sent.value).Reply? && network(x.sent.value).parsed.Done?) ==>
        Serve(x.returned) == JsonResponse(200, x.returned)
  {
    var x := Proxy(cfg, codec, network, endpoint, body);
    if !(x.sent.Some? && network(x.sent.value).Reply? && network(x.sent.value).parsed.Done?) {
      var r := x.returned;
      assert forall i | 0 <= i < |r.members| :: Encodable(r.members[i].value) && NoSqlAlchemyKeys(r.members[i].value);
      assert !SqlAlchemyKey("error") && !SqlAlchemyKey("status") && !SqlAlchemyKey("response") by {
        assert "error"[..3][0] == 'e' && "status"[..3][0] == 's' && "response"[..3][0] == 'r';
      }
      ServedAsReturnedWithoutSqlAlchemyKeys(r);
    }
  }

  /** A dict key the encoder keeps only its last binding of: changing the
      value of an overridden pair does not change whether the answer is
      JSON or the 500. */
  lemma OverriddenValueIgnored(ms: seq<Member>, i: nat, j: nat, x: JSON)
    requires i < j < |ms| && ms[i].key == ms[j].key
    ensures Serve(JObj(ms)).JsonResponse? <==> Serve(JObj(ms[i := Member(ms[i].key, x)])).JsonResponse?
  {
    var ns := ms[i := Member(ms[i].key, x)];
    forall key ensures Get(ns, key) == Get(ms, key) {
      SameKeysLookup(ms, ns, key);
      if Get(ms, key).Some? {
        var l :| LastBindingAt(ms, key, l) && Get(ms, key).value == ms[l].value && Get(ns, key).value == ns[l].value;
        assert l != i;
      }
    }
    assert forall p :: NonFiniteAt(JObj(ms), p) <==> NonFiniteAt(JObj(ns), p);
  }

  /** No dict key anywhere in `j`, overridden or not, starts with "_sa". */
  predicate NoSqlAlchemyKeys(j: JSON)
    decreases j
  {
    match j
    case JArr(items) => forall i | 0 <= i < |items| :: NoSqlAlchemyKeys(items[i])
    case JObj(ms) => forall i | 0 <= i < |ms| :: !SqlAlchemyKey(ms[i].key) && NoSqlAlchemyKeys(ms[i].value)
    case _ => true
  }

  /** The encoder keeps every pair when no key starts with "_sa". */
  lemma {:induction false} KeptAll(ms: seq<Member>)
    requires forall i | 0 <= i < |ms| :: !SqlAlchemyKey(ms[i].key)
    ensures Kept(ms) == ms
    decreases |ms|
  {
    if |ms| > 0 {
      KeptAll(ms[..|ms| - 1]);
      assert ms == ms[..|ms| - 1] + [ms[|ms| - 1]];
    }
  }

  /** A value without "_sa" keys is rendered as it is. */
  lemma {:induction false} RenderedUnchanged(j: JSON)
    requires NoSqlAlchemyKeys(j)
    ensures Rendered(j) == j
    decreases j
  {
    match j
    case JArr(items) =>
      forall i | 0 <= i < |items| ensures Rendered(items[i]) == items[i] {
        RenderedUnchanged(items[i]);
      }
      assert seq(|items|, i requires 0 <= i < |items| => Rendered(items[i])) == items;
    case JObj(ms) =>
      forall i | 0 <= i < |ms| ensures Rendered(ms[i].value) == ms[i].value {
        RenderedUnchanged(ms[i].value);
      }
      assert seq(|ms|, i requires 0 <= i < |ms| => Member(ms[i].key, Rendered(ms[i].value))) == ms;
      KeptAll(ms);
    case _ =>
  }

  /** A returned value without "_sa" keys is answered exactly as returned,
      or with the 500 when it holds NaN or an infinity. */
  lemma ServedAsReturnedWithoutSqlAlchemyKeys(j: JSON)
    requires NoSqlAlchemyKeys(j)
    ensures Serve(j) == if Encodable(j) then JsonResponse(200, j) else InternalServerError
  {
    RenderedUnchanged(j);
  }

  /** A NaN under a "_sa" key is left out by the encoder: the answer is an
      empty JSON dict with status 200. */
  lemma SqlAlchemyNaNServedEmpty()
    ensures Serve(JObj([Member("_sa", JFloat(NaN))])) == JsonResponse(200, JObj([]))
  {
    var ms := [Member("_sa", JFloat(NaN))];
    var mapped := seq(|ms|, i requires 0 <= i < |ms| => Member(ms[i].key, Rendered(ms[i].value)));
    assert mapped[0].key == "_sa";
    assert mapped[..0] == [];
    assert Kept(mapped) == [];
    assert Rendered(JObj(ms)) == JObj([]);
  }

  /** A reply whose body parses as JSON is passed on unchanged. */
  lemma JsonReplyPassedThrough(status: int, j: JSON, text: string)
    ensures Translate(Reply(status, Done(j), text)) == j
  {
  }

  /** A reply that is not JSON becomes {response: text, status: the real
      status, error: null}. */
  lemma NonJsonReplyWrapped(status: int, e: Exception, text: string)
    requires e.JSONDecodeError?
    ensures var r := Translate(Reply(status, Raised(e), text));
      && r.JObj?
      && Keys(r.members) == ["response", "status", "error"]
      && Get(r.members, "response") == Some(JStr(text))
      && Get(r.members, "status") == Some(JInt(status))
      && Get(r.members, "error") == Some(JNull)
  {
    var ms := Translate(Reply(status, Raised(e), text)).members;
    assert ms[..2][..1] == [Member("response", JStr(text))];
    assert Get(ms[..2], "response") == Some(JStr(text));
  }

  /** A transport failure, or any other exception while reading the reply,
      becomes {error: str(e), status: 500}. */
  lemma FailureBecomesError500(outcome: UpstreamOutcome)
    requires outcome.TransportFailure? || (outcome.parsed.Raised? && !outcome.parsed.exception.JSONDecodeError?)
    ensures var e := if outcome.TransportFailure? then outcome.exception else outcome.parsed.exception;
      var r := Translate(outcome);
      && r.JObj?
      && Keys(r.members) == ["error", "status"]
      && Get(r.members, "error") == Some(JStr(Str(e)))
      && Get(r.members, "status") == Some(JInt(500))
  {
  }

  // ---- Content negotiation ----

  /** Without an Accept header /health answers {ok: true}. */
  lemma HealthWithoutAccept()
    ensures Health(None) == JsonResponse(200, JObj([Member("ok", JBool(true))]))
  {
  }

  /** As written, /openapi.json fails whenever the Accept header does not
      mention a text type; with no header at all, for one. */
  lemma GzipKeywordBreaksJsonBranch(schema: JSON, indented: JSON -> string)
    ensures OpenApiAsWritten(schema, None, indented) == Raised(TypeError(GzipKeywordError))
    ensures OpenApi(schema, None, indented) == JsonResponse(200, schema)
  {
  }
}
